=== FILE: README.md ===
# Terra habit engine — a Dafny model

Terra is a gamified habit tracker for sustainability actions. Users check off eco-friendly
habits, collect points, level up and unlock badges. This project models the rules behind
that, as pure transitions over immutable Dafny values:

- **DemoEngine** (`src/App.jsx`) is the self-contained demo. It keeps a habit list, the
  user's points, level and streak, and four badges.
  - Toggling a habit completes it. There is no way to un-complete it.
  - Completing a habit adds its points and sets the level to `floor(points / 100) + 1`.
  - The "Eco Champion" badge (position 2) unlocks when the total reaches 500.
  - Delete filters habits by id. Add appends a 10-point habit unless the name is blank
    after `trim()`.
- **WeeklySummary** (`src/App.jsx`) covers the weekly card: the week's total, its peak,
  the best day (the first position of the maximum) and the trend between the first and
  the seventh day.
- **TipsCarousel** (`src/components/Tips.jsx`) is a state machine over the shown index
  and the `isAnimating` lock.
  - Next and previous wrap modulo the five tips. Jumping to the shown tip does nothing.
  - Every move is refused while the lock is held.
  - The 300 ms timer and the 6 s rotation timer become explicit events.
- **HabitTracker** (`src/components/HabitTracker.jsx`) is the backend-integrated version.
  It runs against an in-memory `Store` that holds the user's habit rows (newest first),
  the user's row and its points column, and the names of the badges the user owns.
  - Toggle flips `completed` and stamps `completed_at` only on completion.
  - Toggle adds or subtracts the habit's points with no clamping.
  - On completion only, toggle runs the first-match-wins milestone scan (50, 100, 250,
    500). The scan awards at most one badge.
  - Add prepends. Delete filters by id.
- **Common** and **JsText** hold what the four modules share:
  - JavaScript's truncating `%`
  - the level formula
  - order-preserving `filter` and `map`
  - ECMAScript `trim()` whitespace

Behaviours of the code worth knowing before reading the contracts:

- HabitTracker un-completion subtracts the habit's points with no clamp, so the stored
  total can go negative (`src/components/HabitTracker.jsx:72,88`).
- In the demo, toggling an id that no pending habit carries changes nothing
  (`src/App.jsx:147`). In both components, deleting an id that no habit carries changes
  nothing. No error is reported in either case.
- In HabitTracker, toggling a habit whose row the store no longer holds matches no row,
  but still reads and writes back the points with the habit's `points` added or
  subtracted, and on completion still runs the milestone check and may award a badge
  (`src/components/HabitTracker.jsx:74-96`).
- The habit name is stored untrimmed; only the blank check trims it. New habits are
  always worth 10 points.
- The demo appends new habits (`src/App.jsx:176-185`). HabitTracker prepends the inserted
  rows (`src/components/HabitTracker.jsx:64`).

Clocks and ids are parameters. The completion timestamp is a `Timestamp` argument. A new
habit's id (`Date.now()` or a database key) is a `freshId` argument. Lemmas that need the
new id to be unused require it.

## Model

| member | source | states |
|---|---|---|
| Common.LevelOf | src/App.jsx:152 | the level is the unique band with `(level-1)*100 <= points < level*100`, i.e. `floor(points/100)+1` |
| Common.LevelOfUnique | src/App.jsx:152 | any level satisfying the band condition equals the computed one |
| Common.JsRem | src/App.jsx:477 | JavaScript `%` agrees with the mathematical remainder on non-negative dividends and keeps the dividend's sign on negative ones |
| Common.JsRemNegate | src/App.jsx:477 | JavaScript `%` is odd in its dividend: negating the dividend negates the remainder, so the value on negative dividends is fixed by the one on positive dividends |
| Common.Filter | src/App.jsx:171 | `filter` keeps only elements satisfying the predicate and never grows the list |
| Common.FilterMembers | src/components/HabitTracker.jsx:143-153 | every kept element comes from the input and every element satisfying the predicate is kept |
| Common.FilterAppend | src/App.jsx:171 | filtering distributes over concatenation (the survivors keep their order) |
| Common.FilterDropsOne | src/App.jsx:171 | a filter rejecting exactly position `i` yields `xs[..i] + xs[i+1..]` |
| JsText.TrimStart | src/App.jsx:175 | the result is the suffix of the input starting at its first non-whitespace character |
| JsText.TrimEnd | src/App.jsx:175 | the result is the prefix of the input ending at its last non-whitespace character |
| JsText.Trim | src/App.jsx:175 | `trim()` returns the slice of the name between the leading and trailing whitespace; it begins and ends with a non-whitespace character and only whitespace lies outside it |
| JsText.TrimEmptyIffBlank | src/components/HabitTracker.jsx:49 | `name.trim()` is empty exactly when every character is ECMAScript whitespace |
| DemoEngine.InitialValid | src/App.jsx:31-111 | the initial demo state (450 points, level 5, distinct ids, four badges) satisfies the invariant, with Eco Champion locked |
| DemoEngine.LastPending | src/App.jsx:146-153 | finds the last incomplete habit with the id, or reports that there is none |
| DemoEngine.MarkCompleted | src/App.jsx:145-167 | only `completed` changes, and it becomes true exactly on the habits with the id |
| DemoEngine.UnlockChampion | src/App.jsx:156-157 | the copied badge list differs from the old one only in the `unlocked` flag of Eco Champion, which is set |
| DemoEngine.Toggle | src/App.jsx:144-168 | keeps list sizes and streak, sets the level from the new points whenever stats change, never re-locks Eco Champion and changes no field of it but `unlocked`, never touches the other badges |
| DemoEngine.ToggleCompletes | src/App.jsx:146-153 | with distinct ids, toggling an incomplete habit completes only it, adds its points and sets `level = points/100 + 1` |
| DemoEngine.ToggleNoPendingIsNoOp | src/App.jsx:147 | an absent or already-completed id leaves habits, points, level and badges unchanged |
| DemoEngine.ToggleChampionIff | src/App.jsx:155-158 | Eco Champion is unlocked afterwards iff it already was or the completion brings points to 500 or more; its id, name and description are kept; other badges unchanged |
| DemoEngine.Delete | src/App.jsx:170-172 | stats and badges unchanged; survivors are exactly the habits with another id |
| DemoEngine.DeleteRemovesOne | src/App.jsx:171 | with distinct ids, deleting the habit at `i` yields the list without position `i`, order kept |
| DemoEngine.DeleteAbsentIsNoOp | src/App.jsx:171 | deleting an id no habit carries changes nothing |
| DemoEngine.Add | src/App.jsx:174-189 | a blank name changes nothing; otherwise exactly one incomplete 10-point habit with the untrimmed name is appended, stats and badges untouched |
| DemoEngine.LevelProgress | src/App.jsx:477 | the progress lies in [0, 100) and together with the level recomposes the points |
| DemoEngine.ToggleKeepsValid | src/App.jsx:144-168 | toggle preserves the invariant (level agrees with points, non-negative points, four badges, distinct ids) |
| DemoEngine.DeleteKeepsValid | src/App.jsx:170-172 | delete preserves the invariant |
| DemoEngine.AddKeepsValid | src/App.jsx:174-189 | add with an unused id preserves the invariant |
| WeeklySummary.Total | src/App.jsx:794 | the weekly sum is non-negative when every day is, and a single day's total is its points; `TotalAppend` makes it additive |
| WeeklySummary.TotalAppend | src/App.jsx:794 | the weekly total of a concatenation is the sum of the totals |
| WeeklySummary.Peak | src/App.jsx:848 | `Math.max` is negative infinity for no days, otherwise an upper bound attained by some day |
| WeeklySummary.BestDay | src/App.jsx:979-985 | the best-day index is 0 for no days, otherwise a day no other day beats, with every earlier day strictly lower (the first position of the maximum) |
| WeeklySummary.BestDayHoldsPeak | src/App.jsx:979-989 | a day no other day beats carries exactly the `Math.max` peak figure |
| WeeklySummary.WeekTrend | src/App.jsx:1010-1016 | the arrow is up iff day 7 beats day 1 (a tie shows down), and the first day's points plus the signed magnitude give day 7's |
| WeeklySummary.InitialWeekSummary | src/App.jsx:73-81 | the demo week totals 450, peaks at 80 and trends up by 30 |
| TipsCarousel.FiveTips | src/components/Tips.jsx:31-77 | the carousel has five tips |
| TipsCarousel.Next | src/components/Tips.jsx:79-85 | ignored while locked; otherwise takes the lock and moves to the successor, wrapping from the last tip to the first |
| TipsCarousel.Prev | src/components/Tips.jsx:87-95 | ignored while locked; otherwise takes the lock and moves to the predecessor, wrapping from the first tip to the last |
| TipsCarousel.GoTo | src/components/Tips.jsx:97-103 | ignored while locked or when the target is shown; otherwise shows the target and takes the lock |
| TipsCarousel.AnimationFinished | src/components/Tips.jsx:83 | the timeout releases the lock and keeps the index |
| TipsCarousel.RunStaysInRange | src/components/Tips.jsx:372-374 | after any event sequence whose jumps come from the dots, the index stays in [0, 5) |
| TipsCarousel.LockedIgnoresNavigation | src/components/Tips.jsx:80 | while animating, next, previous and jump change nothing |
| TipsCarousel.MovesTakeTheLock | src/components/Tips.jsx:80-83 | any event that changes the index found the carousel unlocked and takes the lock |
| TipsCarousel.GoToCurrentIsNoOp | src/components/Tips.jsx:98 | jumping to the shown tip is a no-op and does not take the lock |
| TipsCarousel.NextThenPrev | src/components/Tips.jsx:82 | next, animation end, previous, animation end restores the original state |
| TipsCarousel.PrevThenNext | src/components/Tips.jsx:91 | previous, animation end, next, animation end restores the original state |
| TipsCarousel.ForwardIsModular | src/components/Tips.jsx:82 | `k` completed forward steps land on `(index + k) mod 5` |
| TipsCarousel.FullRoundTrip | src/components/Tips.jsx:82 | five completed forward steps return to the starting tip |
| TipsCarousel.AutoTick | src/components/Tips.jsx:105-111 | the rotation timer, reading the live lock, always moves an idle carousel and stays in range |
| TipsCarousel.MountedStep | src/components/Tips.jsx:105-111 | user events act on the carousel as `Step` does (the interval is re-created when the index changes) |
| TipsCarousel.AutoTickAsWritten | src/components/Tips.jsx:105-111 | the timer as written is a no-op once its captured lock is true; before that it moves an in-range index to `(index + 1) % 5`, takes the lock and captures it |
| TipsCarousel.MountedRunStaysInRange | src/components/Tips.jsx:105-111 | the component as written (user events, animation ends and stale-lock ticks) also keeps the index in [0, 5) |
| TipsCarousel.AutoTickStopsAfterFirstMove | src/components/Tips.jsx:105-111 | after the first automatic move and the end of its animation, the timer as written no longer advances while the live lock is free |
| TipsCarousel.MovedTimerIsDead | src/components/Tips.jsx:105-111 | after a user move the captured lock is true, so the next tick of the timer as written is a no-op |
| TipsCarousel.TimerStaysDead | src/components/Tips.jsx:105-111 | once the captured lock is true, it stays true over any later events |
| TipsCarousel.LaterTicksAreNoOps | src/components/Tips.jsx:105-111 | once the captured lock is true, every later tick is a no-op: a run ends where the same run without its ticks ends |
| HabitTracker.FirstEarnable | src/components/HabitTracker.jsx:116-139 | the first catalog position whose threshold is reached and whose name is not owned, or none if there is no such position |
| HabitTracker.CheckBadgeMilestones | src/components/HabitTracker.jsx:108-141 | owned badges only grow; at most one badge is added; it is from the catalog, unowned, and its threshold does not exceed the points; none is added iff nothing is earnable |
| HabitTracker.AwardIsFirstMatch | src/components/HabitTracker.jsx:116-137 | the awarded badge is the first earnable one in catalog order |
| HabitTracker.RepeatedCheckMovesForward | src/components/HabitTracker.jsx:116-139 | with distinct names, repeating the check with the same points awards a later catalog entry |
| HabitTracker.SetCompletion | src/components/HabitTracker.jsx:74-80 | rows with the id get the new flag, `completed_at` becomes the given time on completion and null otherwise; other rows and fields unchanged |
| HabitTracker.Toggle | src/components/HabitTracker.jsx:70-106 | flips `completed` of the habit's rows exactly as the row update does, writes stored-or-0 points plus or minus the habit's points, and on completion awards exactly what the milestone check at the new points awards; un-completion changes no badge |
| HabitTracker.PointsOrZero | src/components/HabitTracker.jsx:88 | `userData?.points \|\| 0`: a stored value is read as is; a missing row or a null column reads as 0 |
| HabitTracker.ToggleAwardsAtMostOne | src/components/HabitTracker.jsx:95-97 | a toggle earns at most one new badge, only on completion, with threshold at most the new points |
| HabitTracker.ToggleRoundTrip | src/components/HabitTracker.jsx:72-88 | completing then un-completing restores the stored points (a missing user row stays missing) and the rows; badges are kept |
| HabitTracker.UncompleteCanGoNegative | src/components/HabitTracker.jsx:88 | un-completing a habit worth more than the stored points leaves a negative total (no clamp) |
| HabitTracker.ToggleMissingRowStillScores | src/components/HabitTracker.jsx:74-96 | toggling a habit with no stored row leaves the rows unchanged but still moves the points by the habit's value and, on completion, still runs the milestone check |
| HabitTracker.AddHabit | src/components/HabitTracker.jsx:48-68 | a blank name changes nothing; otherwise one incomplete 10-point row with the untrimmed name is prepended |
| HabitTracker.DeleteHabit | src/components/HabitTracker.jsx:143-153 | user points and badges unchanged; the surviving rows are exactly those with another id |
| HabitTracker.DeleteRemovesOne | src/components/HabitTracker.jsx:143-147 | with distinct ids, deleting the row at `i` removes exactly that row, order kept |
| HabitTracker.AddKeepsUniqueIds | src/components/HabitTracker.jsx:51-64 | adding with an unused id keeps row ids distinct |
| HabitTracker.DeleteKeepsUniqueIds | src/components/HabitTracker.jsx:143-147 | delete keeps row ids distinct |
| HabitTracker.ToggleKeepsUniqueIds | src/components/HabitTracker.jsx:74-80 | toggle keeps row ids distinct |
| HabitTracker.MilestoneScenarios | src/components/HabitTracker.jsx:109-114 | 45+10 points earns "Eco Beginner"; 90+20 crosses two thresholds and still earns only "Eco Beginner" |

## Left out

- Rendering, styling, dark mode, theme colour, username editing, and the visibility of
  modals, dialogs, popups and snackbars are presentation only. The Eco Champion popup and
  the earned-badge dialog are not modelled as state. `Toggled.earned` still records which
  badge the dialog would show.
- Timers are not modelled as time. The badge popup's 3 s timeout is left out. The tip
  timeouts (300 ms) and the 6 s interval become explicit events.
- The demo's own tip rotation (`src/App.jsx:137-142`, `(prev + 1) % tips.length` every
  5 s) is left out. It is a single timer-driven counter.
- Supabase calls, their errors and retries are left out. A failed insert, update or delete
  is not modelled, because the in-memory store always succeeds. The refetch after toggle
  and delete is implied: the local list is the store's rows.
- `.single()` failing on duplicate badge rows is not modelled. Owned badges are a set, so
  duplicates cannot arise.
- The non-atomic read-modify-write of the user's points across `await` points is a
  concurrency concern. It is left out.
- `DemoEngine.LevelProgress` covers the integer `points % 100` (line 477). The
  floating-point `((points % 100) / 100) * 100` at line 191 is treated as the same
  integer.
- `Common.LevelOf` treats `Math.floor(newPoints / 100)` as exact integer floor division.
  JavaScript computes it in doubles, which differs only beyond 2^46 points.
- The weekly average (`src/App.jsx:949-952`) is left out. It is a `Math.round` of a
  floating-point division.
- `streak` is a static value. It is carried unchanged and never updated.
- `src/components/Progress.jsx` and `src/components/Dashboard.jsx` are not part of this
  model. They hold random demo data, date formatting and query counts.
- Id generation (`Date.now()`, database keys) and `new Date().toISOString()` are
  parameters.
- The habit icon carries no behaviour. The demo's `icon` string is kept. The
  tracker's rows have no icon field.

## Findings

| source | as written | input that shows it | evidently intended | confidence | as-written member | corrected member |
|---|---|---|---|---|---|---|
| src/components/Tips.jsx:105-111 | The rotation interval is re-created only when `currentIndex` changes. It calls the `nextTip` of that render, whose `isAnimating` is always `true`, because every index change sets the lock in the same update. | Mount the carousel. After 6 s it moves to tip 1, and the lock is released 300 ms later. At every later 6 s tick, `nextTip` sees the stale `true` and does nothing. The index stays 1, and after any manual move it stays wherever the user left it. | Advance every 6 s whenever the carousel is idle, testing the current lock. | medium, not executed | TipsCarousel.AutoTickAsWritten | TipsCarousel.AutoTick |

=== FILE: common.dfy ===
/** Small building blocks shared by the habit engine, the weekly summary and the
    tip carousel: an optional value, JavaScript's remainder operator, the level
    formula, and the two array combinators (`filter`, `map`) the components use
    to rebuild their lists. */
module Common {

  /** A value that may be absent (`null` / `undefined` on the JavaScript side). */
  datatype Option<+T> = None | Some(value: T)

  function Abs(x: int): (r: nat)
    ensures r == x || r == -x
  {
    if x < 0 then -x else x
  }

  /** JavaScript's `a % b`: the quotient is truncated toward zero, so the
      remainder takes the sign of the dividend (unlike Dafny's `%`). */
  function JsRem(a: int, b: int): (r: int)
    requires b > 0
    ensures a >= 0 ==> r == a % b
    ensures a >= 0 ==> 0 <= r < b
    ensures a < 0 ==> -b < r <= 0
  {
    if a >= 0 then a % b else -((-a) % b)
  }

  /** The JavaScript remainder is odd in its dividend. */
  lemma JsRemNegate(a: int, b: int)
    requires b > 0
    ensures JsRem(-a, b) == -JsRem(a, b)
  {
  }

  /** The level reached with `points`: `Math.floor(points / 100) + 1`.
      The ensures pins the level down as the unique band of 100 points
      that contains `points`. */
  function LevelOf(points: int): (level: int)
    ensures (level - 1) * 100 <= points < level * 100
  {
    points / 100 + 1
  }

  /** Any level satisfying the band condition is the one `LevelOf` computes. */
  lemma LevelOfUnique(points: int, level: int)
    requires (level - 1) * 100 <= points < level * 100
    ensures level == LevelOf(points)
  {
  }

  /** `xs.filter(keep)`: the elements satisfying `keep`, in their original order. */
  function Filter<T>(xs: seq<T>, keep: T -> bool): (r: seq<T>)
    ensures |r| <= |xs|
    ensures forall i :: 0 <= i < |r| ==> keep(r[i])
  {
    if |xs| == 0 then []
    else if keep(xs[0]) then [xs[0]] + Filter(xs[1..], keep)
    else Filter(xs[1..], keep)
  }

  /** The filter keeps exactly the elements satisfying `keep`. */
  lemma {:induction false} FilterMembers<T>(xs: seq<T>, keep: T -> bool)
    ensures forall i :: 0 <= i < |Filter(xs, keep)| ==> Filter(xs, keep)[i] in xs
    ensures forall i :: 0 <= i < |xs| && keep(xs[i]) ==> xs[i] in Filter(xs, keep)
  {
    if |xs| > 0 {
      var tail := xs[1..];
      FilterMembers(tail, keep);
      var r := Filter(xs, keep);
      forall i | 0 <= i < |r|
        ensures r[i] in xs
      {
        if keep(xs[0]) && i == 0 {
        } else {
          var k := if keep(xs[0]) then i - 1 else i;
          assert r[i] == Filter(tail, keep)[k];
          assert r[i] in tail;
        }
      }
      forall i | 0 <= i < |xs| && keep(xs[i])
        ensures xs[i] in r
      {
        if i > 0 {
          assert xs[i] == tail[i - 1];
        }
      }
    }
  }

  /** Filtering distributes over concatenation, which is what "the order of
      the kept elements is preserved" means for a filter. */
  lemma {:induction false} FilterAppend<T>(a: seq<T>, b: seq<T>, keep: T -> bool)
    ensures Filter(a + b, keep) == Filter(a, keep) + Filter(b, keep)
  {
    if |a| == 0 {
      assert a + b == b;
    } else {
      assert (a + b)[1..] == a[1..] + b;
      FilterAppend(a[1..], b, keep);
    }
  }

  /** A filter that drops nothing returns its input unchanged. */
  lemma {:induction false} FilterKeepsAll<T>(xs: seq<T>, keep: T -> bool)
    requires forall i :: 0 <= i < |xs| ==> keep(xs[i])
    ensures Filter(xs, keep) == xs
  {
    if |xs| > 0 {
      FilterKeepsAll(xs[1..], keep);
    }
  }

  /** A filter that drops only the first element returns the rest. */
  lemma FilterDropsHead<T>(xs: seq<T>, keep: T -> bool)
    requires |xs| > 0 && !keep(xs[0])
    requires forall j :: 0 < j < |xs| ==> keep(xs[j])
    ensures Filter(xs, keep) == xs[1..]
  {
    var tail := xs[1..];
    assert forall j :: 0 <= j < |tail| ==> tail[j] == xs[j + 1];
    FilterKeepsAll(tail, keep);
  }

  /** Removing the single element at `i` by a filter keeps both sides in order. */
  lemma {:induction false} FilterDropsOne<T>(xs: seq<T>, i: nat, keep: T -> bool)
    requires i < |xs|
    requires !keep(xs[i])
    requires forall j :: 0 <= j < |xs| && j != i ==> keep(xs[j])
    ensures Filter(xs, keep) == xs[..i] + xs[i + 1..]
  {
    if i == 0 {
      FilterDropsHead(xs, keep);
    } else {
      var tail := xs[1..];
      forall j | 0 <= j < |tail| && j != i - 1
        ensures keep(tail[j])
      {
        assert tail[j] == xs[j + 1];
      }
      FilterDropsOne(tail, i - 1, keep);
      assert keep(xs[0]);
      assert Filter(xs, keep) == [xs[0]] + Filter(tail, keep);
      assert xs[..i] + xs[i + 1..] == [xs[0]] + (tail[..i - 1] + tail[i..]);
    }
  }

  /** No two elements of `xs` share a key. */
  predicate DistinctKeys<T, K(==)>(xs: seq<T>, key: T -> K) {
    forall i, j :: 0 <= i < j < |xs| ==> key(xs[i]) != key(xs[j])
  }

  /** Filtering never introduces a repeated key. */
  lemma {:induction false} FilterKeepsDistinct<T, K>(xs: seq<T>, keep: T -> bool, key: T -> K)
    requires DistinctKeys(xs, key)
    ensures DistinctKeys(Filter(xs, keep), key)
  {
    if |xs| > 0 {
      var tail := xs[1..];
      assert DistinctKeys(tail, key) by {
        forall i, j | 0 <= i < j < |tail|
          ensures key(tail[i]) != key(tail[j])
        {
          assert tail[i] == xs[i + 1] && tail[j] == xs[j + 1];
        }
      }
      FilterKeepsDistinct(tail, keep, key);
      var ft := Filter(tail, keep);
      if keep(xs[0]) {
        FilterMembers(tail, keep);
        forall j | 0 <= j < |ft|
          ensures key(xs[0]) != key(ft[j])
        {
          assert ft[j] in tail;
          var k :| 0 <= k < |tail| && tail[k] == ft[j];
          assert tail[k] == xs[k + 1];
        }
        var r := [xs[0]] + ft;
        forall i, j | 0 <= i < j < |r|
          ensures key(r[i]) != key(r[j])
        {
          if i > 0 {
            assert r[i] == ft[i - 1] && r[j] == ft[j - 1];
          } else {
            assert r[j] == ft[j - 1];
          }
        }
      }
    }
  }

  /** `xs.map(f)`. */
  function MapSeq<T, U>(xs: seq<T>, f: T -> U): (r: seq<U>)
    ensures |r| == |xs|
    ensures forall i :: 0 <= i < |xs| ==> r[i] == f(xs[i])
  {
    seq(|xs|, i requires 0 <= i < |xs| => f(xs[i]))
  }
}

=== FILE: demo_engine.dfy ===
/** The self-contained demo engine of `src/App.jsx`: a habit list, the user's
    points and level, and a fixed list of four badges of which only "Eco
    Champion" is ever unlocked by the engine. Every React `setX` replacement
    becomes a pure transition on an immutable `State`. */
module DemoEngine {
  import opened Common
  import opened JsText

  datatype Habit = Habit(id: int, name: string, icon: string, points: int, completed: bool)

  datatype Badge = Badge(id: int, name: string, unlocked: bool, desc: string)

  /** `streak` is a static display value that no operation changes. */
  datatype Stats = Stats(points: int, streak: int, level: int)

  datatype State = State(habits: seq<Habit>, stats: Stats, badges: seq<Badge>)

  /** Position of "Eco Champion" in the badge list, and its threshold. */
  const EcoChampion: nat := 2
  const EcoChampionThreshold: int := 500

  /** Points of a habit created by the add-habit form, and its icon. */
  const NewHabitPoints: int := 10
  const NewHabitIcon: string := "seedling"

  function Initial(): State {
    State(
      [ Habit(1, "Use reusable water bottle", "water", 10, false),
        Habit(2, "Recycle properly", "recycle", 15, false),
        Habit(3, "Bike instead of drive", "bicycle", 20, false),
        Habit(4, "Use LED bulbs", "lightbulb", 10, false),
        Habit(5, "Compost food scraps", "seedling", 15, false) ],
      Stats(450, 7, 5),
      [ Badge(1, "First Step", true, "Complete your first habit"),
        Badge(2, "Week Warrior", true, "7 day streak"),
        Badge(3, "Eco Champion", false, "Reach 500 points"),
        Badge(4, "Master Recycler", false, "Recycle 20 times") ])
  }

  predicate UniqueIds(hs: seq<Habit>) {
    DistinctKeys(hs, (h: Habit) => h.id)
  }

  /** The demo's state invariant: the level agrees with the points, points and
      habit values are non-negative, the badge list keeps its four entries and
      habit ids are distinct. */
  predicate Valid(s: State) {
    && s.stats.level == LevelOf(s.stats.points)
    && s.stats.points >= 0
    && (forall i :: 0 <= i < |s.habits| ==> s.habits[i].points >= 0)
    && |s.badges| == 4
    && UniqueIds(s.habits)
  }

  lemma InitialValid()
    ensures Valid(Initial())
    ensures !Initial().badges[EcoChampion].unlocked
  {
  }

  // ---------------------------------------------------------------- toggle

  /** A habit the toggle button would complete: matching id and not yet done. */
  predicate Pending(h: Habit, id: int) {
    h.id == id && !h.completed
  }

  /** The last pending habit with `id`. Inside `habits.map` every pending match
      calls `setUserStats` with an object built from the same stale
      `userStats`, so the last call is the one that survives. */
  function LastPending(hs: seq<Habit>, id: int): (r: Option<nat>)
    ensures r.Some? ==> r.value < |hs| && Pending(hs[r.value], id)
    ensures r.Some? ==> forall j :: r.value < j < |hs| ==> !Pending(hs[j], id)
    ensures r.None? <==> forall j :: 0 <= j < |hs| ==> !Pending(hs[j], id)
  {
    if |hs| == 0 then None
    else if Pending(hs[|hs| - 1], id) then Some(|hs| - 1)
    else LastPending(hs[..|hs| - 1], id)
  }

  /** Some pending habit with `id` would lift `base` to the Eco Champion threshold. */
  predicate ReachesChampion(hs: seq<Habit>, id: int, base: int) {
    exists i :: 0 <= i < |hs| && Pending(hs[i], id) && base + hs[i].points >= EcoChampionThreshold
  }

  function MarkCompleted(hs: seq<Habit>, id: int): (r: seq<Habit>)
    ensures |r| == |hs|
    ensures forall i :: 0 <= i < |hs| ==> r[i].completed == (hs[i].completed || hs[i].id == id)
    ensures forall i :: 0 <= i < |hs| ==> r[i].(completed := hs[i].completed) == hs[i]
  {
    MapSeq(hs, (h: Habit) => if Pending(h, id) then h.(completed := true) else h)
  }

  function UnlockChampion(badges: seq<Badge>): (r: seq<Badge>)
    requires EcoChampion < |badges|
    ensures |r| == |badges|
    ensures r[EcoChampion] == badges[EcoChampion].(unlocked := true)
    ensures forall k :: 0 <= k < |badges| && k != EcoChampion ==> r[k] == badges[k]
  {
    badges[EcoChampion := badges[EcoChampion].(unlocked := true)]
  }

  /** `toggleHabit(id)`: completes the pending habits with `id` (there is no
      way back), adds the habit's points, recomputes the level and unlocks
      Eco Champion when the new total reaches 500. `badges[2]` is read without
      a guard, hence the requires. */
  function Toggle(s: State, id: int): (r: State)
    requires EcoChampion < |s.badges|
    ensures |r.habits| == |s.habits| && |r.badges| == |s.badges|
    ensures r.stats.streak == s.stats.streak
    ensures r.stats == s.stats || r.stats.level == LevelOf(r.stats.points)
    ensures s.badges[EcoChampion].unlocked ==> r.badges == s.badges
    ensures r.badges[EcoChampion].(unlocked := s.badges[EcoChampion].unlocked) == s.badges[EcoChampion]
    ensures forall k :: 0 <= k < |s.badges| && k != EcoChampion ==> r.badges[k] == s.badges[k]
  {
    var habits := MarkCompleted(s.habits, id);
    match LastPending(s.habits, id)
    case None => s.(habits := habits)
    case Some(i) =>
      var newPoints := s.stats.points + s.habits[i].points;
      var stats := s.stats.(points := newPoints, level := LevelOf(newPoints));
      var badges :=
        if ReachesChampion(s.habits, id, s.stats.points) && !s.badges[EcoChampion].unlocked
        then UnlockChampion(s.badges)
        else s.badges;
      State(habits, stats, badges)
  }

  /** Toggling a pending habit of a list with distinct ids completes exactly
      that habit, adds its points and recomputes the level from them. */
  lemma ToggleCompletes(s: State, i: nat)
    requires EcoChampion < |s.badges| && UniqueIds(s.habits)
    requires i < |s.habits| && !s.habits[i].completed
    ensures var r := Toggle(s, s.habits[i].id);
      && r.habits == s.habits[i := s.habits[i].(completed := true)]
      && r.stats.points == s.stats.points + s.habits[i].points
      && r.stats.level == r.stats.points / 100 + 1
      && r.stats.streak == s.stats.streak
  {
  }

  /** An id that is absent, or whose habits are all completed already, changes
      nothing: there is no un-complete path in the demo. */
  lemma ToggleNoPendingIsNoOp(s: State, id: int)
    requires EcoChampion < |s.badges|
    requires forall j :: 0 <= j < |s.habits| ==> s.habits[j].id != id || s.habits[j].completed
    ensures Toggle(s, id) == s
  {
    assert MarkCompleted(s.habits, id) == s.habits;
  }

  /** Completing the pending habit at `i` leaves Eco Champion unlocked exactly
      when it already was or the new total reaches 500; every other badge is
      left as it was. */
  lemma ToggleChampionIff(s: State, i: nat)
    requires EcoChampion < |s.badges| && UniqueIds(s.habits)
    requires i < |s.habits| && !s.habits[i].completed
    ensures var r := Toggle(s, s.habits[i].id);
      && (r.badges[EcoChampion].unlocked <==>
            s.badges[EcoChampion].unlocked || s.stats.points + s.habits[i].points >= EcoChampionThreshold)
      && r.badges[EcoChampion].(unlocked := s.badges[EcoChampion].unlocked) == s.badges[EcoChampion]
      && forall k :: 0 <= k < |s.badges| && k != EcoChampion ==> r.badges[k] == s.badges[k]
  {
  }

  // ---------------------------------------------------------------- delete, add

  /** `deleteHabit(id)`: drops every habit with `id`, keeping the rest in order;
      stats and badges are untouched even when the habit was completed. */
  function Delete(s: State, id: int): (r: State)
    ensures r.stats == s.stats && r.badges == s.badges
    ensures forall j :: 0 <= j < |r.habits| ==> r.habits[j].id != id && r.habits[j] in s.habits
    ensures forall j :: 0 <= j < |s.habits| && s.habits[j].id != id ==> s.habits[j] in r.habits
  {
    FilterMembers(s.habits, (h: Habit) => h.id != id);
    s.(habits := Filter(s.habits, (h: Habit) => h.id != id))
  }

  /** With distinct ids, deleting the habit at `i` removes exactly that entry. */
  lemma DeleteRemovesOne(s: State, i: nat)
    requires UniqueIds(s.habits) && i < |s.habits|
    ensures Delete(s, s.habits[i].id).habits == s.habits[..i] + s.habits[i + 1..]
  {
    FilterDropsOne(s.habits, i, (h: Habit) => h.id != s.habits[i].id);
  }

  /** Deleting an id no habit carries changes nothing. */
  lemma DeleteAbsentIsNoOp(s: State, id: int)
    requires forall j :: 0 <= j < |s.habits| ==> s.habits[j].id != id
    ensures Delete(s, id) == s
  {
    FilterKeepsAll(s.habits, (h: Habit) => h.id != id);
  }

  /** `addHabit()`: a name that is blank after trimming is ignored; otherwise a
      fresh incomplete 10-point habit carrying the untrimmed name is appended. */
  function Add(s: State, name: string, freshId: int): (r: State)
    ensures IsBlank(name) ==> r == s
    ensures !IsBlank(name) ==>
      && r.habits == s.habits + [Habit(freshId, name, NewHabitIcon, NewHabitPoints, false)]
      && r.stats == s.stats && r.badges == s.badges
  {
    TrimEmptyIffBlank(name);
    if |Trim(name)| > 0 then
      s.(habits := s.habits + [Habit(freshId, name, NewHabitIcon, NewHabitPoints, false)])
    else
      s
  }

  // ---------------------------------------------------------------- invariant

  /** The percentage shown under the level: `points % 100`. */
  function LevelProgress(points: int): (r: int)
    requires points >= 0
    ensures 0 <= r < 100
    ensures points == (LevelOf(points) - 1) * 100 + r
  {
    JsRem(points, 100)
  }

  lemma ToggleKeepsValid(s: State, id: int)
    requires Valid(s)
    ensures Valid(Toggle(s, id))
  {
  }

  lemma DeleteKeepsValid(s: State, id: int)
    requires Valid(s)
    ensures Valid(Delete(s, id))
  {
    FilterKeepsDistinct(s.habits, (h: Habit) => h.id != id, (h: Habit) => h.id);
  }

  lemma AddKeepsValid(s: State, name: string, freshId: int)
    requires Valid(s)
    requires forall j :: 0 <= j < |s.habits| ==> s.habits[j].id != freshId
    ensures Valid(Add(s, name, freshId))
  {
  }
}

=== FILE: habit_tracker.dfy ===
/** The backend-integrated habit logic of `src/components/HabitTracker.jsx`.
    The hosted tables become one in-memory `Store`: the user's habit rows
    (newest first, the order `fetchHabits` asks for), the user's row with its
    points column, and the names of the badges the user owns. Each handler is a
    pure update of that store. */
module HabitTracker {
  import opened Common
  import opened JsText

  /** The ISO-8601 string `new Date().toISOString()` produces, supplied by the caller. */
  type Timestamp = string

  datatype HabitRow = HabitRow(id: int, name: string, points: int, completed: bool, completedAt: Option<Timestamp>)

  /** The user's row may be missing, and its `points` column may be null. */
  datatype UserRow = NoUserRow | UserRow(points: Option<int>)

  datatype Store = Store(habits: seq<HabitRow>, user: UserRow, badges: set<string>)

  datatype Milestone = Milestone(threshold: int, name: string, description: string)

  /** The milestone catalog, checked in this order. */
  const Catalog: seq<Milestone> := [
    Milestone(50, "Eco Beginner", "Earned 50 points!"),
    Milestone(100, "Green Warrior", "Earned 100 points!"),
    Milestone(250, "Sustainability Champion", "Earned 250 points!"),
    Milestone(500, "Earth Guardian", "Earned 500 points!")
  ]

  const NewHabitPoints: int := 10

  /** `userData?.points || 0`: a missing row or a null column reads as 0. */
  function PointsOrZero(u: UserRow): (r: int)
    ensures u.UserRow? && u.points.Some? ==> r == u.points.value
    ensures r != 0 ==> u.UserRow? && u.points.Some?
  {
    if u.UserRow? && u.points.Some? then u.points.value else 0
  }

  // ------------------------------------------------------------ milestones

  /** A milestone the user has reached and does not own yet. */
  predicate Earnable(m: Milestone, points: int, owned: set<string>) {
    points >= m.threshold && m.name !in owned
  }

  /** The loop of `checkBadgeMilestones`: the position of the first earnable
      milestone in catalog order, where the loop inserts a badge and breaks. */
  function FirstEarnable(catalog: seq<Milestone>, points: int, owned: set<string>): (r: Option<nat>)
    ensures r.Some? ==> r.value < |catalog| && Earnable(catalog[r.value], points, owned)
    ensures r.Some? ==> forall j :: 0 <= j < r.value ==> !Earnable(catalog[j], points, owned)
    ensures r.None? <==> forall j :: 0 <= j < |catalog| ==> !Earnable(catalog[j], points, owned)
  {
    if |catalog| == 0 then None
    else if Earnable(catalog[0], points, owned) then Some(0)
    else match FirstEarnable(catalog[1..], points, owned)
      case None => None
      case Some(k) => Some(k + 1)
  }

  /** What a milestone check leaves behind: the owned badges and the badge
      shown in the dialog, if any. */
  datatype Award = Award(owned: set<string>, earned: Option<Milestone>)

  /** `checkBadgeMilestones(points)`: awards at most one badge, the first in
      catalog order that `points` reaches and the user does not own, and never
      takes a badge away. */
  function CheckBadgeMilestones(catalog: seq<Milestone>, points: int, owned: set<string>): (r: Award)
    ensures owned <= r.owned
    ensures r.earned.None? ==> r.owned == owned
    ensures r.earned.None? <==> forall j :: 0 <= j < |catalog| ==> !Earnable(catalog[j], points, owned)
    ensures r.earned.Some? ==>
      && r.earned.value in catalog
      && r.earned.value.threshold <= points
      && r.earned.value.name !in owned
      && r.owned == owned + {r.earned.value.name}
  {
    match FirstEarnable(catalog, points, owned)
    case None => Award(owned, None)
    case Some(k) => Award(owned + {catalog[k].name}, Some(catalog[k]))
  }

  /** The awarded badge is the first earnable one: every milestone before it
      in the catalog is either out of reach or already owned. */
  lemma AwardIsFirstMatch(catalog: seq<Milestone>, points: int, owned: set<string>, k: nat)
    requires k < |catalog| && Earnable(catalog[k], points, owned)
    requires forall j :: 0 <= j < k ==> !Earnable(catalog[j], points, owned)
    ensures CheckBadgeMilestones(catalog, points, owned).earned == Some(catalog[k])
  {
  }

  predicate DistinctNames(catalog: seq<Milestone>) {
    forall i, j :: 0 <= i < j < |catalog| ==> catalog[i].name != catalog[j].name
  }

  /** When a large jump crosses several thresholds, repeating the check with
      the same points awards the next one in catalog order: the award moves
      strictly forward. */
  lemma RepeatedCheckMovesForward(catalog: seq<Milestone>, points: int, owned: set<string>, k: nat)
    requires DistinctNames(catalog)
    requires FirstEarnable(catalog, points, owned) == Some(k)
    ensures var again := FirstEarnable(catalog, points, owned + {catalog[k].name});
      again.Some? ==> again.value > k
  {
  }

  // ------------------------------------------------------------ toggle

  function SetCompletion(rows: seq<HabitRow>, id: int, done: bool, now: Timestamp): (r: seq<HabitRow>)
    ensures |r| == |rows|
    ensures forall i :: 0 <= i < |rows| && rows[i].id != id ==> r[i] == rows[i]
    ensures forall i :: 0 <= i < |rows| && rows[i].id == id ==>
      && r[i].completed == done
      && (r[i].completedAt.Some? <==> done)
      && r[i].completedAt == (if done then Some(now) else None)
      && r[i].(completed := rows[i].completed, completedAt := rows[i].completedAt) == rows[i]
  {
    MapSeq(rows, (h: HabitRow) =>
      if h.id == id then h.(completed := done, completedAt := if done then Some(now) else None) else h)
  }

  /** What `toggleHabit` leaves behind: the store and the badge dialog. */
  datatype Toggled = Toggled(store: Store, earned: Option<Milestone>)

  /** `toggleHabit(habit)` for the client's copy `habit`: flips `completed`
      on the rows with its id (stamping `completed_at` only on completion),
      writes back the stored points plus `+points` or `-points` with no
      clamping, and checks milestones only on completion. The update of a
      missing user row matches nothing. */
  function Toggle(s: Store, habit: HabitRow, now: Timestamp): (r: Toggled)
    ensures |r.store.habits| == |s.habits|
    ensures forall i :: 0 <= i < |s.habits| && s.habits[i].id != habit.id ==> r.store.habits[i] == s.habits[i]
    ensures forall i :: 0 <= i < |s.habits| && s.habits[i].id == habit.id ==>
      r.store.habits[i].completed == !habit.completed
      && (r.store.habits[i].completedAt.Some? <==> !habit.completed)
    ensures s.user.NoUserRow? <==> r.store.user.NoUserRow?
    ensures r.store.user.UserRow? ==>
      r.store.user.points == Some(PointsOrZero(s.user) + (if habit.completed then -habit.points else habit.points))
    ensures s.badges <= r.store.badges
    ensures habit.completed ==> r.store.badges == s.badges && r.earned.None?
    ensures !habit.completed ==>
      Award(r.store.badges, r.earned) == CheckBadgeMilestones(Catalog, PointsOrZero(s.user) + habit.points, s.badges)
    ensures r.store.habits == SetCompletion(s.habits, habit.id, !habit.completed, now)
  {
    var newCompleted := !habit.completed;
    var pointChange := if newCompleted then habit.points else -habit.points;
    var rows := SetCompletion(s.habits, habit.id, newCompleted, now);
    var newPoints := PointsOrZero(s.user) + pointChange;
    var user := if s.user.UserRow? then UserRow(Some(newPoints)) else NoUserRow;
    if newCompleted then
      var award := CheckBadgeMilestones(Catalog, newPoints, s.badges);
      Toggled(Store(rows, user, award.owned), award.earned)
    else
      Toggled(Store(rows, user, s.badges), None)
  }

  /** A badge earned by a toggle has a threshold the new points reach, was not
      owned before, and is the only badge added. */
  lemma ToggleAwardsAtMostOne(s: Store, habit: HabitRow, now: Timestamp)
    ensures var r := Toggle(s, habit, now);
      && (r.earned.None? ==> r.store.badges == s.badges)
      && (r.earned.Some? ==>
            && !habit.completed
            && r.earned.value.threshold <= PointsOrZero(s.user) + habit.points
            && r.store.badges == s.badges + {r.earned.value.name}
            && r.earned.value.name !in s.badges)
  {
  }

  /** Completing then un-completing the same habit puts the stored points back
      where they were and restores a row that was incomplete and unstamped;
      badges earned on the way are kept. */
  lemma ToggleRoundTrip(s: Store, i: nat, now: Timestamp, later: Timestamp)
    requires i < |s.habits| && !s.habits[i].completed && s.habits[i].completedAt.None?
    requires forall j :: 0 <= j < |s.habits| && s.habits[j].id == s.habits[i].id ==>
      !s.habits[j].completed && s.habits[j].completedAt.None?
    ensures var h := s.habits[i];
      var once := Toggle(s, h, now).store;
      var twice := Toggle(once, once.habits[i], later).store;
      && PointsOrZero(twice.user) == PointsOrZero(s.user)
      && (twice.user.NoUserRow? <==> s.user.NoUserRow?)
      && twice.habits == s.habits
      && s.badges <= twice.badges
  {
  }

  /** Nothing clamps the total: un-completing a habit worth more than the
      stored points leaves a negative balance. */
  lemma UncompleteCanGoNegative(s: Store, habit: HabitRow, now: Timestamp)
    requires s.user.UserRow? && habit.completed
    requires habit.points > PointsOrZero(s.user)
    ensures Toggle(s, habit, now).store.user.points.value < 0
  {
  }

  /** The points are read and written back whether or not the update matched a
      row: toggling a habit the store no longer holds leaves the rows alone but
      still moves the points and, on completion, still runs the milestone check. */
  lemma ToggleMissingRowStillScores(s: Store, habit: HabitRow, now: Timestamp)
    requires forall j :: 0 <= j < |s.habits| ==> s.habits[j].id != habit.id
    requires s.user.UserRow?
    ensures var r := Toggle(s, habit, now);
      && r.store.habits == s.habits
      && PointsOrZero(r.store.user) == PointsOrZero(s.user) + (if habit.completed then -habit.points else habit.points)
      && (!habit.completed ==> r.earned == CheckBadgeMilestones(Catalog, PointsOrZero(s.user) + habit.points, s.badges).earned)
  {
  }

  // ------------------------------------------------------------ add, delete

  /** `addHabit()`: a name that is blank after trimming is ignored; otherwise
      the inserted row, incomplete and worth 10 points, carrying the untrimmed
      name, becomes the first habit. */
  function AddHabit(s: Store, name: string, freshId: int): (r: Store)
    ensures IsBlank(name) ==> r == s
    ensures !IsBlank(name) ==>
      && r.habits == [HabitRow(freshId, name, NewHabitPoints, false, None)] + s.habits
      && r.user == s.user && r.badges == s.badges
  {
    TrimEmptyIffBlank(name);
    if |Trim(name)| == 0 then s
    else s.(habits := [HabitRow(freshId, name, NewHabitPoints, false, None)] + s.habits)
  }

  /** `deleteHabit(habitId)`: the rows with that id go, the rest keep their
      order, and the user's points and badges are untouched. */
  function DeleteHabit(s: Store, id: int): (r: Store)
    ensures r.user == s.user && r.badges == s.badges
    ensures forall j :: 0 <= j < |r.habits| ==> r.habits[j].id != id && r.habits[j] in s.habits
    ensures forall j :: 0 <= j < |s.habits| && s.habits[j].id != id ==> s.habits[j] in r.habits
  {
    FilterMembers(s.habits, (h: HabitRow) => h.id != id);
    s.(habits := Filter(s.habits, (h: HabitRow) => h.id != id))
  }

  predicate UniqueIds(rows: seq<HabitRow>) {
    DistinctKeys(rows, (h: HabitRow) => h.id)
  }

  /** With distinct ids, deleting the row at `i` removes exactly that row. */
  lemma DeleteRemovesOne(s: Store, i: nat)
    requires UniqueIds(s.habits) && i < |s.habits|
    ensures DeleteHabit(s, s.habits[i].id).habits == s.habits[..i] + s.habits[i + 1..]
  {
    FilterDropsOne(s.habits, i, (h: HabitRow) => h.id != s.habits[i].id);
  }

  /** Adding with an id no row carries keeps ids distinct. */
  lemma AddKeepsUniqueIds(s: Store, name: string, freshId: int)
    requires UniqueIds(s.habits)
    requires forall j :: 0 <= j < |s.habits| ==> s.habits[j].id != freshId
    ensures UniqueIds(AddHabit(s, name, freshId).habits)
  {
  }

  lemma DeleteKeepsUniqueIds(s: Store, id: int)
    requires UniqueIds(s.habits)
    ensures UniqueIds(DeleteHabit(s, id).habits)
  {
    FilterKeepsDistinct(s.habits, (h: HabitRow) => h.id != id, (h: HabitRow) => h.id);
  }

  lemma ToggleKeepsUniqueIds(s: Store, habit: HabitRow, now: Timestamp)
    requires UniqueIds(s.habits)
    ensures UniqueIds(Toggle(s, habit, now).store.habits)
  {
  }

  /** Two scenarios: 45 + 10 points earns only "Eco Beginner"; 90 + 20
      points crosses two thresholds and still earns only "Eco Beginner". */
  lemma MilestoneScenarios()
    ensures var r := Toggle(Store([], UserRow(Some(45)), {}), HabitRow(1, "h", 10, false, None), "t");
      r.earned == Some(Catalog[0]) && r.store.badges == {"Eco Beginner"}
    ensures var r := Toggle(Store([], UserRow(Some(90)), {}), HabitRow(1, "h", 20, false, None), "t");
      r.earned == Some(Catalog[0]) && r.store.badges == {"Eco Beginner"}
  {
  }
}

=== FILE: jstext.dfy ===
/** `String.prototype.trim` as both habit forms use it to reject blank names:
    the characters ECMAScript counts as WhiteSpace or LineTerminator are
    stripped from both ends. */
module JsText {

  /** ECMAScript WhiteSpace (TAB, VT, FF, SPACE, NBSP, ZWNBSP and the Unicode
      space separators) and LineTerminator (LF, CR, LS, PS). */
  predicate IsJsWhitespace(c: char) {
    var n := c as int;
    n == 0x09 || n == 0x0A || n == 0x0B || n == 0x0C || n == 0x0D
    || n == 0x20 || n == 0xA0 || n == 0x1680
    || (0x2000 <= n <= 0x200A)
    || n == 0x2028 || n == 0x2029 || n == 0x202F || n == 0x205F
    || n == 0x3000 || n == 0xFEFF
  }

  /** A name consisting of whitespace only (the empty name included). */
  predicate IsBlank(s: string) {
    forall i :: 0 <= i < |s| ==> IsJsWhitespace(s[i])
  }

  /** Drops the leading whitespace: the result is the suffix of `s` that
      starts at its first non-whitespace character. */
  function TrimStart(s: string): (r: string)
    ensures |r| <= |s| && r == s[|s| - |r|..]
    ensures forall i :: 0 <= i < |s| - |r| ==> IsJsWhitespace(s[i])
    ensures |r| > 0 ==> !IsJsWhitespace(r[0])
  {
    if |s| > 0 && IsJsWhitespace(s[0]) then TrimStart(s[1..]) else s
  }

  /** Drops the trailing whitespace: the result is the prefix of `s` that
      ends at its last non-whitespace character. */
  function TrimEnd(s: string): (r: string)
    ensures |r| <= |s| && r == s[..|r|]
    ensures forall i :: |r| <= i < |s| ==> IsJsWhitespace(s[i])
    ensures |r| > 0 ==> !IsJsWhitespace(r[|r| - 1])
  {
    if |s| > 0 && IsJsWhitespace(s[|s| - 1]) then TrimEnd(s[..|s| - 1]) else s
  }

  /** How many leading characters `trim()` drops. */
  function LeadingBlank(s: string): nat
    ensures LeadingBlank(s) <= |s|
  {
    |s| - |TrimStart(s)|
  }

  /** `s.trim()`: the slice of `s` left once the whitespace at both ends is
      gone; it starts and ends with a non-whitespace character, and only
      whitespace lies outside it. */
  function Trim(s: string): (r: string)
    ensures LeadingBlank(s) + |r| <= |s|
    ensures r == s[LeadingBlank(s)..LeadingBlank(s) + |r|]
    ensures forall i :: 0 <= i < LeadingBlank(s) ==> IsJsWhitespace(s[i])
    ensures forall i :: LeadingBlank(s) + |r| <= i < |s| ==> IsJsWhitespace(s[i])
    ensures |r| > 0 ==> !IsJsWhitespace(r[0]) && !IsJsWhitespace(r[|r| - 1])
  {
    var t := TrimStart(s);
    assert t == s[LeadingBlank(s)..];
    TrimEndOfSuffix(s, LeadingBlank(s));
    TrimEnd(t)
  }

  /** Trimming the end of the suffix `s[k..]` leaves a slice of `s` followed
      by whitespace only. */
  lemma TrimEndOfSuffix(s: string, k: nat)
    requires k <= |s|
    ensures var r := TrimEnd(s[k..]);
      k + |r| <= |s| && r == s[k..k + |r|]
      && forall i :: k + |r| <= i < |s| ==> IsJsWhitespace(s[i])
  {
    var t := s[k..];
    var r := TrimEnd(t);
    forall i | k + |r| <= i < |s|
      ensures IsJsWhitespace(s[i])
    {
      assert s[i] == t[i - k];
    }
  }

  /** `name.trim()` is falsy (the empty string) exactly when the name is blank. */
  lemma TrimEmptyIffBlank(s: string)
    ensures Trim(s) == [] <==> IsBlank(s)
  {
  }
}

=== FILE: tips_carousel.dfy ===
/** The tip carousel of `src/components/Tips.jsx`: a state machine over the
    shown index and an `isAnimating` lock. The 300 ms timer that releases the
    lock is the explicit `AnimationFinished` event, and the 6 s rotation timer
    is the explicit `AutoTick` event. */
module TipsCarousel {
  import opened Common

  datatype Tip = Tip(title: string, kind: string)

  const Tips: seq<Tip> := [
    Tip("Recycling Matters", "Fact"),
    Tip("Bike to Work", "Challenge"),
    Tip("Plant-Based Meals", "Tip"),
    Tip("LED Lighting", "Tip"),
    Tip("Water Conservation", "Fact")
  ]

  /** `tips.length`. */
  const N: int := |Tips|

  lemma FiveTips()
    ensures N == 5
  {
  }

  datatype Carousel = Carousel(index: int, animating: bool)

  const Initial: Carousel := Carousel(0, false)

  /** The index points at a tip. */
  predicate InRange(c: Carousel) {
    0 <= c.index < N
  }

  /** `nextTip`: one step forward, wrapping from the last tip to the first. */
  function Next(c: Carousel): (r: Carousel)
    ensures c.animating ==> r == c
    ensures !c.animating ==> r.animating
    ensures !c.animating && InRange(c) ==>
      InRange(r) && (if c.index == N - 1 then r.index == 0 else r.index == c.index + 1)
  {
    if !c.animating then Carousel(JsRem(c.index + 1, N), true) else c
  }

  /** `prevTip`: one step back, wrapping from the first tip to the last. */
  function Prev(c: Carousel): (r: Carousel)
    ensures c.animating ==> r == c
    ensures !c.animating ==> r.animating
    ensures !c.animating && InRange(c) ==>
      InRange(r) && (if c.index == 0 then r.index == N - 1 else r.index == c.index - 1)
  {
    if !c.animating then Carousel(JsRem(c.index - 1 + N, N), true) else c
  }

  /** `goToTip(target)`: a jump, ignored while animating or when it would not move. */
  function GoTo(c: Carousel, target: int): (r: Carousel)
    ensures c.animating || target == c.index ==> r == c
    ensures !c.animating && target != c.index ==> r == Carousel(target, true)
  {
    if !c.animating && target != c.index then Carousel(target, true) else c
  }

  /** The 300 ms timeout: `setIsAnimating(false)`. */
  function AnimationFinished(c: Carousel): (r: Carousel)
    ensures r.index == c.index && !r.animating
  {
    c.(animating := false)
  }

  /** The rotation timer, reading the current lock (see `AutoTickAsWritten`
      for what the component actually does). */
  function AutoTick(c: Carousel): (r: Carousel)
    ensures !c.animating && InRange(c) ==> r.index != c.index && InRange(r)
    ensures c.animating ==> r == c
  {
    Next(c)
  }

  datatype Event = NextTip | PrevTip | GoToTip(target: int) | Finished | Tick

  function Step(c: Carousel, e: Event): Carousel {
    match e
    case NextTip => Next(c)
    case PrevTip => Prev(c)
    case GoToTip(t) => GoTo(c, t)
    case Finished => AnimationFinished(c)
    case Tick => AutoTick(c)
  }

  function Run(c: Carousel, events: seq<Event>): Carousel
    decreases |events|
  {
    if |events| == 0 then c else Run(Step(c, events[0]), events[1..])
  }

  /** The jumps the dots under the carousel can request: one per tip. */
  predicate DotTargets(events: seq<Event>) {
    forall k :: 0 <= k < |events| && events[k].GoToTip? ==> 0 <= events[k].target < N
  }

  /** Whatever the events, the index keeps pointing at a tip. */
  lemma {:induction false} RunStaysInRange(c: Carousel, events: seq<Event>)
    requires InRange(c) && DotTargets(events)
    ensures InRange(Run(c, events))
    decreases |events|
  {
    if |events| > 0 {
      var e := events[0];
      assert InRange(Step(c, e)) by {
        if e.GoToTip? {
          assert 0 <= e.target < N;
        }
      }
      assert DotTargets(events[1..]) by {
        forall k | 0 <= k < |events[1..]| && events[1..][k].GoToTip?
          ensures 0 <= events[1..][k].target < N
        {
          assert events[1..][k] == events[k + 1];
        }
      }
      RunStaysInRange(Step(c, e), events[1..]);
    }
  }

  /** While the lock is held, navigation changes nothing. */
  lemma LockedIgnoresNavigation(c: Carousel, target: int)
    requires c.animating
    ensures Next(c) == c && Prev(c) == c && GoTo(c, target) == c
  {
  }

  /** Every event that moves the index also takes the lock, and only an idle
      carousel moves. */
  lemma MovesTakeTheLock(c: Carousel, e: Event)
    ensures Step(c, e).index != c.index ==> Step(c, e).animating && !c.animating
  {
  }

  /** Jumping to the tip already shown does not take the lock. */
  lemma GoToCurrentIsNoOp(c: Carousel)
    ensures GoTo(c, c.index) == c
    ensures !c.animating ==> !GoTo(c, c.index).animating
  {
  }

  /** Forward then back, with the animation finished in between, is the identity. */
  lemma NextThenPrev(c: Carousel)
    requires InRange(c) && !c.animating
    ensures Prev(AnimationFinished(Next(c))) == Next(c).(index := c.index)
    ensures AnimationFinished(Prev(AnimationFinished(Next(c)))) == c
  {
  }

  /** Back then forward, with the animation finished in between, is the identity. */
  lemma PrevThenNext(c: Carousel)
    requires InRange(c) && !c.animating
    ensures AnimationFinished(Next(AnimationFinished(Prev(c)))) == c
  {
  }

  /** `k` forward steps, each followed by the end of its animation. */
  function Forward(c: Carousel, k: nat): Carousel
    decreases k
  {
    if k == 0 then c else Forward(AnimationFinished(Next(c)), k - 1)
  }

  /** Stepping forward `k` times lands on `(index + k) mod N`. */
  lemma {:induction false} ForwardIsModular(c: Carousel, k: nat)
    requires InRange(c) && !c.animating
    ensures Forward(c, k) == Carousel((c.index + k) % N, false)
    decreases k
  {
    if k > 0 {
      var c' := AnimationFinished(Next(c));
      assert c'.index == (c.index + 1) % N;
      ForwardIsModular(c', k - 1);
      assert ((c.index + 1) % N + (k - 1)) % N == (c.index + k) % N;
    }
  }

  /** A full round of `N` forward steps returns to the tip it started from. */
  lemma FullRoundTrip(c: Carousel)
    requires InRange(c) && !c.animating
    ensures Forward(c, N) == c
  {
    ForwardIsModular(c, N);
    ModSelf(c.index);
  }

  lemma ModSelf(i: int)
    requires 0 <= i < N
    ensures (i + N) % N == i
  {
    FiveTips();
    assert i + 5 == 1 * 5 + i;
  }

  // ------------------------------------------------------------ rotation timer

  /** The component as mounted. The interval is re-created by an effect that
      depends on `currentIndex` only, so its `nextTip` closure sees the
      `isAnimating` of the render in which the index last changed (`false`
      only before the first move). `tickSees` is that captured value. */
  datatype Mounted = Mounted(c: Carousel, tickSees: bool)

  const MountedInitial: Mounted := Mounted(Initial, false)

  /** A user event or the end of an animation; a render that changes the
      index re-creates the interval with the current lock value. */
  function MountedStep(m: Mounted, e: Event): (r: Mounted)
    requires !e.Tick?
    ensures r.c == Step(m.c, e)
  {
    var c := Step(m.c, e);
    Mounted(c, if c.index != m.c.index then c.animating else m.tickSees)
  }

  /** The rotation timer as written: it tests the captured lock, not the
      current one. */
  function AutoTickAsWritten(m: Mounted): (r: Mounted)
    ensures m.tickSees ==> r == m
    ensures !m.tickSees && InRange(m.c) ==>
      && InRange(r.c) && r.c.index == (m.c.index + 1) % N && r.c.index != m.c.index
      && r.c.animating && r.tickSees
  {
    if !m.tickSees then
      var c := Carousel(JsRem(m.c.index + 1, N), true);
      Mounted(c, true)
    else m
  }

  /** One event delivered to the mounted component: a tick runs the timer as
      written, anything else is a user event or the end of an animation. */
  function MountedApply(m: Mounted, e: Event): Mounted {
    if e.Tick? then AutoTickAsWritten(m) else MountedStep(m, e)
  }

  function MountedRun(m: Mounted, events: seq<Event>): Mounted
    decreases |events|
  {
    if |events| == 0 then m else MountedRun(MountedApply(m, events[0]), events[1..])
  }

  /** The component as written also keeps the index pointing at a tip,
      whatever mix of user events, animation ends and stale ticks arrives. */
  lemma {:induction false} MountedRunStaysInRange(m: Mounted, events: seq<Event>)
    requires InRange(m.c) && DotTargets(events)
    ensures InRange(MountedRun(m, events).c)
    decreases |events|
  {
    if |events| > 0 {
      var e := events[0];
      assert InRange(MountedApply(m, e).c) by {
        if e.GoToTip? {
          assert 0 <= e.target < N;
        }
      }
      assert DotTargets(events[1..]) by {
        forall k | 0 <= k < |events[1..]| && events[1..][k].GoToTip?
          ensures 0 <= events[1..][k].target < N
        {
          assert events[1..][k] == events[k + 1];
        }
      }
      MountedRunStaysInRange(MountedApply(m, e), events[1..]);
    }
  }

  /** What the timer as written keeps seeing: once the captured lock is true,
      no later event sets it back to false. */
  lemma {:induction false} TimerStaysDead(m: Mounted, events: seq<Event>)
    requires m.tickSees
    ensures MountedRun(m, events).tickSees
    decreases |events|
  {
    if |events| > 0 {
      MovesTakeTheLock(m.c, events[0]);
      TimerStaysDead(MountedApply(m, events[0]), events[1..]);
    }
  }

  predicate IsUserEvent(e: Event) {
    !e.Tick?
  }

  /** Once the captured lock is true, every later tick is a no-op: the run
      ends where the same run with its ticks removed ends. */
  lemma {:induction false} LaterTicksAreNoOps(m: Mounted, events: seq<Event>)
    requires m.tickSees
    ensures MountedRun(m, events) == MountedRun(m, Filter(events, IsUserEvent))
    decreases |events|
  {
    if |events| > 0 {
      var e := events[0];
      TimerStaysDead(m, [e]);
      assert MountedRun(MountedApply(m, e), []) == MountedApply(m, e);
      LaterTicksAreNoOps(MountedApply(m, e), events[1..]);
      if !e.Tick? {
        assert Filter(events, IsUserEvent) == [e] + Filter(events[1..], IsUserEvent);
      }
    }
  }

  /** Once the index has moved, every render that moved it captured
      `isAnimating == true`, so the timer as written never advances again. */
  lemma AutoTickStopsAfterFirstMove()
    ensures var m1 := AutoTickAsWritten(MountedInitial);
      var m2 := MountedStep(m1, Finished);
      && m1.c.index == 1
      && !m2.c.animating
      && AutoTickAsWritten(m2).c.index == 1
      && AutoTick(m2.c).index == 2
  {
  }

  /** Any user move also leaves the timer as written dead. */
  lemma MovedTimerIsDead(m: Mounted, e: Event)
    requires !e.Tick?
    requires MountedStep(m, e).c.index != m.c.index
    ensures MountedStep(m, e).tickSees
    ensures AutoTickAsWritten(MountedStep(m, e)) == MountedStep(m, e)
  {
  }
}

=== FILE: weekly_summary.dfy ===
/** The weekly progress card of `src/App.jsx`: the week's total, its peak, the
    best day and the trend between the first and the seventh day, computed from
    a list of (day, points) entries. */
module WeeklySummary {
  import opened Common

  datatype DayPoints = DayPoints(date: string, points: int)

  /** The demo data; no operation ever replaces it. */
  function InitialWeek(): seq<DayPoints> {
    [ DayPoints("Mon", 45), DayPoints("Tue", 60), DayPoints("Wed", 50),
      DayPoints("Thu", 75), DayPoints("Fri", 65), DayPoints("Sat", 80),
      DayPoints("Sun", 75) ]
  }

  /** `progressData.reduce((sum, d) => sum + d.points, 0)`. */
  function Total(days: seq<DayPoints>): (r: int)
    ensures (forall i :: 0 <= i < |days| ==> days[i].points >= 0) ==> r >= 0
    ensures |days| == 1 ==> r == days[0].points
  {
    if |days| == 0 then 0 else Total(days[..|days| - 1]) + days[|days| - 1].points
  }

  /** The total of a concatenation is the sum of the totals. */
  lemma {:induction false} TotalAppend(a: seq<DayPoints>, b: seq<DayPoints>)
    ensures Total(a + b) == Total(a) + Total(b)
    decreases |b|
  {
    if |b| == 0 {
      assert a + b == a;
    } else {
      var b' := b[..|b| - 1];
      assert (a + b)[..|a + b| - 1] == a + b';
      TotalAppend(a, b');
    }
  }

  /** The result of `Math.max(...)`: negative infinity for no arguments. */
  datatype MaxValue = NegInfinity | Finite(n: int)

  function MaxOf(x: MaxValue, y: int): int {
    match x
    case NegInfinity => y
    case Finite(n) => if n >= y then n else y
  }

  /** `Math.max(...progressData.map((d) => d.points))`: an upper bound of every
      day's points that some day attains. */
  function Peak(days: seq<DayPoints>): (r: MaxValue)
    ensures r.NegInfinity? <==> |days| == 0
    ensures r.Finite? ==> forall i :: 0 <= i < |days| ==> days[i].points <= r.n
    ensures r.Finite? ==> exists i :: 0 <= i < |days| && days[i].points == r.n
  {
    if |days| == 0 then NegInfinity
    else
      var rest := Peak(days[..|days| - 1]);
      var last := days[|days| - 1].points;
      assert rest.Finite? ==> exists i :: 0 <= i < |days| - 1 && days[i].points == rest.n by {
        if rest.Finite? {
          var i :| 0 <= i < |days| - 1 && days[..|days| - 1][i].points == rest.n;
          assert days[i] == days[..|days| - 1][i];
        }
      }
      Finite(MaxOf(rest, last))
  }

  /** The best-day index: `progressData.reduce((max, d, i, arr) =>
      d.points > arr[max].points ? i : max, 0)`. Starting from 0 it moves only
      on a strictly larger value, so it is the first position of the peak. */
  method BestDay(days: seq<DayPoints>) returns (best: nat)
    ensures |days| == 0 ==> best == 0
    ensures |days| > 0 ==> best < |days|
    ensures |days| > 0 ==> forall j :: 0 <= j < |days| ==> days[j].points <= days[best].points
    ensures |days| > 0 ==> forall j :: 0 <= j < best ==> days[j].points < days[best].points
  {
    best := 0;
    var i := 0;
    while i < |days|
      invariant 0 <= i <= |days|
      invariant |days| == 0 ==> best == 0
      invariant |days| > 0 ==> best < |days|
      invariant best <= i
      invariant forall j :: 0 <= j < i ==> days[j].points <= days[best].points
      invariant forall j :: 0 <= j < best ==> days[j].points < days[best].points
    {
      if days[i].points > days[best].points {
        best := i;
      }
      i := i + 1;
    }
  }

  /** A day no other day beats holds the peak, so the best day's points are
      the "Peak" figure shown beside it. */
  lemma BestDayHoldsPeak(days: seq<DayPoints>, best: nat)
    requires best < |days|
    requires forall j :: 0 <= j < |days| ==> days[j].points <= days[best].points
    ensures Peak(days) == Finite(days[best].points)
  {
    var k :| 0 <= k < |days| && days[k].points == Peak(days).n;
    assert days[k].points <= days[best].points;
  }

  datatype Arrow = Up | Down

  /** The trend shown next to "vs start": an arrow and a magnitude. */
  datatype Trend = Trend(arrow: Arrow, magnitude: nat)

  /** The signed change the trend stands for. */
  function Signed(t: Trend): int {
    if t.arrow == Up then t.magnitude else -(t.magnitude as int)
  }

  /** The trend from `progressData[0]` to `progressData[6]`: up exactly when
      the seventh day beat the first (a tie shows as down), and the magnitude
      is the absolute difference, so the first day's points plus the signed
      trend give the seventh day's. The code indexes 0 and 6 unguarded. */
  function WeekTrend(days: seq<DayPoints>): (r: Trend)
    requires |days| > 6
    ensures r.arrow == Up <==> days[6].points > days[0].points
    ensures days[0].points + Signed(r) == days[6].points
  {
    var first, last := days[0].points, days[6].points;
    Trend(if last > first then Up else Down, Abs(last - first))
  }

  /** For the demo week: total 450, peak 80 (Saturday), trend up by 30. */
  lemma InitialWeekSummary()
    ensures Total(InitialWeek()) == 450
    ensures Peak(InitialWeek()) == Finite(80)
    ensures WeekTrend(InitialWeek()) == Trend(Up, 30)
  {
    var w := InitialWeek();
    assert w[..1][..0] == w[..0];
    assert Total(w[..1]) == 45;
    assert w[..2][..1] == w[..1];
    assert Total(w[..2]) == 105;
    assert w[..3][..2] == w[..2];
    assert Total(w[..3]) == 155;
    assert w[..4][..3] == w[..3];
    assert Total(w[..4]) == 230;
    assert w[..5][..4] == w[..4];
    assert Total(w[..5]) == 295;
    assert w[..6][..5] == w[..5];
    assert Total(w[..6]) == 375;
    assert w[..7][..6] == w[..6];
    assert w[..7] == w;
    assert w[5].points == 80;
  }
}
